=== FILE: README.md ===
# Sonos toggle scripts — decision model

This project models the decision logic of a family of small Sonos control
scripts. Each script is a one-shot "toggle": a phone shortcut runs it, it
inspects the speakers, sends a few commands through the device-control
library and prints a summary. There are three distinct decision rules:

- **The global group-aware toggle** (module `GlobalToggle`). Its decision
  logic is shared by `603G_sonos.py`, `560_sonos.py`, `NYCS_sonos.py`,
  `BR_sonos.py` and `CT68_sonos.py`, which differ in their address tables
  and summary output. It works in four steps:
  - It walks the table and skips every address whose connection or group
    lookup raises.
  - It keeps each reported group coordinator once, in the order in which
    it was first reported.
  - It pauses every coordinator if any coordinator is PLAYING, and tells
    every coordinator to play otherwise.
  - A command that raises on one coordinator is logged, and the loop
    carries on.
- **The House resume toggle** `CC_Sonos.py` (module `HouseToggle`). It
  works in these steps:
  - Gym is unjoined if it follows House.
  - If House follows another coordinator, House takes over that
    coordinator's track and position, leaves the group and, if the
    takeover failed, loads a favourite station.
  - Otherwise House pauses when PLAYING.
  - When PAUSED_PLAYBACK, House resumes in place if it has a current
    track. Without one it starts the station search, and no separate play
    follows.
  - In any other state it loads the station when the queue is empty or
    there is no track, and then plays.
  - The station search goes through three stages in order: the
    music-library favourites, then the legacy favourites, then a test
    tone.
- **The House-or-Gym toggle** `cc_gym_sonos_.py` (module
  `HouseGymToggle`). It works in three steps:
  - House coordinates when it is reachable, and Gym is pulled into its
    group. Otherwise Gym coordinates on its own.
  - The coordinator pauses when PLAYING. Otherwise it plays, after
    clearing the queue and adding a fixed station when the queue is
    empty.
  - A failure to read the state, or any failure while toggling, ends the
    run with a message.

## How the system is modelled

**The network.** A run sees the network as an immutable snapshot,
`Network = map<string, Speaker>`, keyed by ip address. An address outside
the map is one that cannot be connected to.

**Queries.** Every library query becomes a field of `Speaker`:

- `None` means the query raised the library's exception.
- `Query` also distinguishes a method that does not exist. This is the
  AttributeError fallback in the `queue_empty` helpers.

**Commands and runs.**

- A command is a target ip plus an operation.
- Which commands raise on the device is the input `failing: set<Command>`.
- A run is the sequence of commands attempted plus a verdict:
  - `Finished(action)`: the run printed its action.
  - `Aborted(message)`: the script exited deliberately.
  - `Crashed`: an exception escaped.

**The five global scripts.** Their decision logic is identical; they
differ in the address table and, in `560_sonos.py`, in the summary print. The table below cites `603G_sonos.py` (the same as
`560_sonos.py`). The same code is at:

- lines 38-71 of `NYCS_sonos.py` and `BR_sonos.py`: walk 38-47, exit 49-50,
  `any` 53-56, dispatch 59-65;
- lines 36-69 of `CT68_sonos.py`.

The shared vocabulary is in `sonos.dfy`. `text.dfy` holds the
lower-casing, substring and first-match helpers that the favourite lookup
uses.

## Model

| member | source | states |
|---|---|---|
| Sonos.IssueAll | cc_gym_sonos_.py:113-126 | Commands inside one try block are sent in order until the first one raises. Nothing after it is sent. The block succeeds iff no command raises, and every command sent before the last one succeeded. |
| Text.FirstMatch | CC_Sonos.py:49-53 | `next(generator, None)`: the index returned is the first element satisfying the filter. None iff no element satisfies it. |
| GlobalToggle.Skipped | 603G_sonos.py:46-52 | The addresses logged as skipped are exactly the table entries whose connect or group lookup raised. |
| GlobalToggle.Distinct | 603G_sonos.py:44-50 | Insertion into the ip-keyed dictionary yields no duplicates and exactly the reported coordinators. |
| GlobalToggle.DistinctFirstSeen | 603G_sonos.py:44-50 | The dictionary keeps coordinators in the order each was first reported. A repeated report does not move a key. |
| GlobalToggle.DistinctUnique | 603G_sonos.py:44-50 | Any duplicate-free list of the reported coordinators in first-seen order equals the dictionary's key order. This is the independent characterisation of the dedup loop. |
| GlobalToggle.CoordinatorsAreReported | 603G_sonos.py:46-50 | About `Coordinators`, the dictionary built from `Probe` (one address's connect and group lookup) and `Reports` (the walk): the targets are unique, and x is a target iff some reachable table address reports x as its coordinator. The order is first-seen. |
| GlobalToggle.SkippedContributesNothing | 603G_sonos.py:51-52 | Deleting a skipped address from the table changes neither the set nor the order of coordinators. |
| GlobalToggle.AnyPlaying | 603G_sonos.py:58-61 | `any()` short-circuits. True means some coordinator is PLAYING. False iff every coordinator answered and none is PLAYING. An escaped exception implies some coordinator's state query raised. |
| GlobalToggle.AnyPlayingWhenAllAnswer | 603G_sonos.py:58-61 | When every state query answers, the result is exactly "some coordinator is PLAYING". |
| GlobalToggle.Broadcast | 603G_sonos.py:66-68 | The i-th command sends the chosen action to the i-th coordinator, one command per coordinator. |
| GlobalToggle.BroadcastOnce | 603G_sonos.py:66-68 | With distinct coordinators, each coordinator receives the action exactly once and nothing else receives it. |
| GlobalToggle.Failures | 603G_sonos.py:66-70 | The error log names exactly the targets whose command raised. |
| GlobalToggle.Toggle | 603G_sonos.py:43-76 | The skipped log is independent of the outcome. A run that does not finish sends nothing, targets nothing and logs no command errors. |
| GlobalToggle.ToggleExitsWhenNothingReachable | 603G_sonos.py:54-55 | The run exits with "No reachable Sonos speakers!" and no commands iff every table address is skipped. |
| GlobalToggle.TogglePausesIffAnyPlaying | 603G_sonos.py:58-68 | A finished run pauses iff some coordinator reports PLAYING, and it sends exactly the broadcast of its action. If every coordinator answers, the run finishes. The run crashes iff some state query raises before any coordinator reports PLAYING, because `any()` stops at the first PLAYING coordinator. In particular, a PLAYING coordinator ahead of every raising query gives a run that finishes with pause. |
| GlobalToggle.ToggleSendsOncePerCoordinator | 603G_sonos.py:64-70 | A finished run sends one command per coordinator, all carrying the global action. Each coordinator receives it exactly once, and no other speaker receives it. |
| GlobalToggle.ToggleFailuresAreIsolated | 603G_sonos.py:66-70 | Which commands raise changes nothing about what is sent or how the run ends. The error log lists exactly the coordinators whose command raised. |
| GlobalToggle.ToggleTargetsFirstSeen | 603G_sonos.py:44-76 | The summary names one target per distinct coordinator, in first-seen order, each by that coordinator's player name. |
| HouseToggle.QueueEmpty | CC_Sonos.py:30-35 | The queue is non-empty iff the size query answered a positive count, or (the size method is missing and) the length query did. Every raised query reads as empty. |
| HouseToggle.CurrentUri | CC_Sonos.py:38-42 | Whenever the track info carries a uri, that uri is returned. A non-empty result is always that uri. A track query that raises yields "". |
| HouseToggle.ResumeFromOther | CC_Sonos.py:84-96 | Everything goes to dest. Without a source uri, nothing is sent and the result is False. Otherwise play_uri(uri) comes first. Success iff that play does not raise. A seek is sent iff the resume succeeded and the position is neither empty, 0:00:00 nor NOT_IMPLEMENTED. Exactly one command is sent when the play raises or no seek is worth it, two when a seek follows, and the seek goes to the source track's position. |
| HouseToggle.ModernAttempt | CC_Sonos.py:47-58 | The music-library stage tries a play_uri iff the module is available, the list can be fetched, and the first favourite whose lower-cased title contains the name has a resource. It plays that favourite's first resource. |
| HouseToggle.LegacyAttempt | CC_Sonos.py:59-72 | The legacy stage tries a play_uri iff the list can be fetched and some title matches. It plays the uri of the first matching entry, or "" when that entry has no uri. |
| HouseToggle.PlayStation | CC_Sonos.py:45-76 | One to three play_uri commands, all to the speaker. The search stops at the music-library stage iff its attempt exists and does not raise; it then sends only that. It stops at the legacy stage with the music-library attempt, if any, followed by the legacy attempt. It reaches the tone stage iff both favourite stages produced nothing or raised. It then sends the music-library attempt and the legacy attempt, each if any, followed by the tone. |
| HouseToggle.PlayStationPicksFirstMatch | CC_Sonos.py:47-56 | The station is the first favourite, in list order, whose lower-cased title contains the lower-cased name. Its first resource is played and nothing else is, when that play succeeds. |
| HouseToggle.PlayStationPicksFirstLegacyMatch | CC_Sonos.py:59-76 | Once the music-library stage hands over, the uri of the first legacy favourite whose lower-cased title contains the name is played. The tone follows iff that play raises. |
| HouseToggle.PlayStationToneWithoutMatch | CC_Sonos.py:59-76 | With no matching title in either favourite list, the tone is the only thing played. |
| HouseToggle.PlayStationToneMeansModernFailed | CC_Sonos.py:47-58 | If the tone is played although a music-library favourite matches, then playing that favourite's first resource raised. |
| HouseToggle.HouseStep | CC_Sonos.py:107-138 | Once House is reachable, every command goes to House and the run never exits with a message. A finished run reports pause iff House does not follow another coordinator and is PLAYING. The run crashes iff House does not follow another coordinator and either its state query raises or the closing pause or play raises. A paused House without a uri never crashes, because the station search catches its own failures. |
| HouseToggle.KickGym | CC_Sonos.py:103-105 | The Gym step is a single unjoin of Gym iff Gym is reachable and follows House, and nothing otherwise. |
| HouseToggle.Toggle | CC_Sonos.py:100-138 | The run exits with "House unreachable." iff House cannot be connected to, and then nothing is sent. A reachable Gym whose group lookup raises crashes the run before anything is sent. |
| HouseToggle.ToggleKicksGymFollower | CC_Sonos.py:101-105 | Gym receives exactly one command, an unjoin sent first, and only when it is reachable and follows House. |
| HouseToggle.ToggleExternalAlwaysPlays | CC_Sonos.py:107-120 | House is unjoined iff it follows another coordinator (`External`; a raising lookup counts as not following). In that case the action is play. The run then sends, in order: the Gym step, the takeover of the other coordinator's track (`ResumeFromOther`), the unjoin of House, and the station search iff the takeover failed. The unjoin is the last command iff the takeover succeeded. |
| HouseToggle.TogglePausesIffPlaying | CC_Sonos.py:122-126 | Outside the external case, House is paused iff it reports PLAYING. A PLAYING House then receives only the pause after the Gym step. The run finishes with pause unless that pause raises, in which case it crashes. A run that finishes with pause had House PLAYING. |
| HouseToggle.TogglePausedResumesInPlace | CC_Sonos.py:128-131 | A paused House with a current uri gets exactly one plain play after the Gym step: no play_uri and no seek. The run finishes with play unless that play raises, in which case it crashes. |
| HouseToggle.TogglePausedWithoutUriPlaysStation | CC_Sonos.py:128-133 | A paused House whose current uri has vanished gets only the station search after the Gym step, with no plain play. The run finishes with play whatever the search sent. |
| HouseToggle.ToggleStoppedLoadsStationWhenEmpty | CC_Sonos.py:135-138 | In any other state, the run sends the Gym step, then the station search (`PlayStation`) iff the queue is empty or there is no current uri, then one play, and nothing else. The run finishes iff that play does not raise, and crashes otherwise. |
| HouseToggle.ToggleUnreadableStateCrashes | CC_Sonos.py:122-123 | When House follows no other coordinator and its state query raises, the run crashes with only the Gym step sent and nothing sent to House. |
| HouseGymToggle.QueueEmpty | cc_gym_sonos_.py:45-53 | Only a reported count of zero is empty. A failing length fallback counts as non-empty. A size query that raises escapes instead of being caught. |
| HouseGymToggle.QueueEmptyVariantsCompared | cc_gym_sonos_.py:45-53 | The two scripts' queue checks agree when the size query answers. They disagree when the size and length queries are both unavailable. |
| HouseGymToggle.StationLeavesOnlyStation | cc_gym_sonos_.py:56-63 | `StationCommands` (clear, add the station, play) leaves exactly the station in the queue, whatever it held before. |
| HouseGymToggle.Coordinator | cc_gym_sonos_.py:84-95 | The coordinator is a reachable speaker, House or Gym. Gym is chosen only when House is unreachable. There is none iff neither can be connected to. |
| HouseGymToggle.Regroup | cc_gym_sonos_.py:81-97 | The grouping repair sends commands only to Gym. It raises iff Gym is reachable and its group lookup raises. |
| HouseGymToggle.RegroupWithHouse | cc_gym_sonos_.py:84-93 | With House reachable, Gym is joined to House iff it does not follow House. It is unjoined iff, in addition, its group has more than one member. The unjoin then comes first and the join second, and nothing else is sent. The join is always the last repair command. |
| HouseGymToggle.RegroupWithoutHouse | cc_gym_sonos_.py:94-97 | With House offline, the repair consists only of unjoins of Gym. Gym is unjoined iff its group has more than one member. |
| HouseGymToggle.ToggleCommands | cc_gym_sonos_.py:109-123 | The toggle sends a non-empty list of commands only to the coordinator, with no grouping commands. It raises iff the state is not PLAYING and the queue-size query raises. A PLAYING coordinator gets exactly pause. Otherwise a non-empty queue gets exactly play, and an empty one gets the station sequence followed by play. The last command is always the chosen action. |
| HouseGymToggle.CoordinatorStep | cc_gym_sonos_.py:103-126 | The state read and toggle send everything to the coordinator and never regroup. Every failure in this step ends with a message, never with an escaped exception. The step ends with "Unable to read transport state." iff the state query raised. It finishes iff the state was read, the queue query answered and no toggle command raised. It then has sent exactly the toggle commands and reports pause iff the state was PLAYING. Whatever the outcome, what is sent is a prefix of the toggle commands, and nothing is sent when the state or queue query raised. |
| HouseGymToggle.StepFailures | cc_gym_sonos_.py:109-126 | The step ends with "Playback error" iff the state was read and then either the queue query raised or a sent command raised. A command that raised is the last one sent. |
| HouseGymToggle.Toggle | cc_gym_sonos_.py:73-126 | With neither speaker reachable, the run exits with "No reachable Sonos speakers." before anything is sent. It crashes iff the Gym group lookup raises. |
| HouseGymToggle.ToggleHousePreferred | cc_gym_sonos_.py:84-93 | With House reachable, a whole run joins Gym to House iff Gym does not follow House. It unjoins Gym iff, in addition, Gym's group has more than one member. In that case the run opens with the unjoin followed by the join. |
| HouseGymToggle.ToggleHouseGymTargets | cc_gym_sonos_.py:84-123 | With House reachable, commands go only to House and Gym. Gym receives nothing but unjoin and join-House. |
| HouseGymToggle.ToggleGymFallback | cc_gym_sonos_.py:94-97 | With House offline, every command goes to Gym. Gym is unjoined iff its group has more than one member, and it never joins anyone. |
| HouseGymToggle.TogglePausesIffPlaying | cc_gym_sonos_.py:103-123 | A run finishes iff the grouping lookup, the state read and the queue query all answer and no toggle command raises. A finished run pauses iff the coordinator was PLAYING. The pause command is sent iff the action is pause. |
| HouseGymToggle.ToggleLoadsStationIffEmpty | cc_gym_sonos_.py:109-123 | When not PLAYING, the queue is cleared iff it reads empty. When it read empty, a finished run leaves exactly the station in the queue. |
| HouseGymToggle.ToggleFailuresAbort | cc_gym_sonos_.py:103-126 | The run exits with "Unable to read transport state." iff the state query raised, and then only the grouping repair has been sent. The run ends with "Playback error" iff the queue query raised or a toggle command raised. That command is the last one sent. |
| HouseGymToggle.ToggleIgnoresGroupingFailures | cc_gym_sonos_.py:84-97 | Unjoin and join failures are swallowed. Whether any grouping repair command raises changes neither the commands sent nor how the run ends. |

## Left out

**Library and environment.**

- Network I/O and library configuration are left out: the device-control
  library, request timeout and event listener. Speaker answers are the
  fields of the snapshot.
- Printing is left out: JSON summaries, timestamps, log wording and the
  text of `Playback error: {e}` (only its fixed prefix is kept). So is the
  half-second sleep in `CC_Sonos.py`.
- The concrete address tables of the global scripts are left out. The
  table is an arbitrary input `addrs`. The House and Gym ips and the
  station uri are kept as constants.
- Exceptions other than the library's own are left out. The model assumes
  that a failing connect or query raises the library's exception, so that
  the scripts' `except` clauses catch it.
- Lower-casing covers ASCII letters only. Python's full Unicode `lower()`
  is not modelled.

**Device behaviour.**

- What a speaker does after receiving a command is left out. The
  exception is the queue effect of clear and add, which
  `HouseGymToggle.QueueAfter` models.
- The legacy favourites call may return a dictionary or a list. The model
  takes the resulting list directly.
- A favourite is taken to be truthy. Legacy entries may lack a title or a
  uri, and this is modelled as `Option`.
- Whether the music-library module could be imported is the input
  `modern`.

**Summaries and logs.**

- The `player_name` queries for the targets and the error log are taken
  as always answering.
- The group-member listing in the `cc_gym_sonos_.py` summary is left out.

**Weaker or partial contracts.**

- Sonos.IssueAll: whether a command raises is keyed by its value
  (`failing: set<Command>`), so within one run the same command to the
  same speaker either always raises or never does. The source can send
  identical commands twice: the second `play()` on the station path of
  `cc_gym_sonos_.py` (line 63, then line 119 or 123), and repeated
  identical `play_uri` attempts in `CC_Sonos.py`'s `play_station`. A run
  where the first copy succeeds and the second raises is not represented.
  A per-attempt failure model would need each attempt to carry its
  position in the run.

- GlobalToggle.Toggle: requires that every reported coordinator is itself
  a speaker in the snapshot (`Resolved`). Its target names are read from
  that speaker. A coordinator outside the snapshot is not modelled.
- HouseToggle.PlayStation: an error raised while iterating the favourites
  is not modelled separately from "the list could not be fetched". An
  error inside a stage hands over to the next stage the same way in both
  cases.

**Notes on the source.**

- The `cc_gym_sonos_.py` exit "Coordinator could not be determined."
  (lines 99-100) cannot be reached. The earlier exit already covers both
  speakers being unreachable, so `HouseGymToggle.Toggle` has no such
  verdict.
- The `queue_empty` docstring in `cc_gym_sonos_.py` says it never raises.
  The code catches only AttributeError around the size query, so a size
  query that raises the library's exception propagates. The model follows
  the code: it yields the "Playback error" exit.

=== FILE: global_toggle.dfy ===
/** The group-aware global toggle shared by the five whole-house scripts
    (603G, 560, NYCS, BR and CT68), whose decision logic is identical.

    A run walks the address table, asks every reachable speaker for its group
    coordinator and keeps each coordinator once, in the order it was first
    reported. If any coordinator is playing, every coordinator is paused;
    otherwise every coordinator is told to play. */
module GlobalToggle {
  import opened Sonos

  const NO_SPEAKERS: string := "No reachable Sonos speakers!"

  /** The coordinator ip reported for address `ip`, or None when connecting or
      the group lookup raised and the address is skipped. */
  function Probe(net: Network, ip: string): Option<string>
  {
    if ip in net && net[ip].group.Some? then Some(net[ip].group.value.coordinator) else None
  }

  function Reported(net: Network, ip: string): seq<string>
  {
    match Probe(net, ip)
    case Some(c) => [c]
    case None => []
  }

  /** Every coordinator ip reported while walking `addrs`, with repeats. */
  function Reports(net: Network, addrs: seq<string>): seq<string>
  {
    if |addrs| == 0 then []
    else
      Reported(net, addrs[0]) + Reports(net, addrs[1..])
  }

  /** The addresses that are skipped with a log line, in walk order. */
  function Skipped(net: Network, addrs: seq<string>): (r: seq<string>)
    ensures forall x :: x in r <==> exists i :: 0 <= i < |addrs| && addrs[i] == x && Probe(net, x).None?
  {
    if |addrs| == 0 then []
    else
      var rest := Skipped(net, addrs[1..]);
      assert forall i :: 0 < i < |addrs| ==> addrs[i] == addrs[1..][i - 1];
      if Probe(net, addrs[0]).None? then [addrs[0]] + rest else rest
  }

  /** The table lists real speakers: every coordinator a reachable speaker
      reports is itself a speaker in the snapshot. */
  predicate Resolved(net: Network, addrs: seq<string>)
  {
    forall i :: 0 <= i < |addrs| && Probe(net, addrs[i]).Some? ==> Probe(net, addrs[i]).value in net
  }

  predicate NoDup(s: seq<string>)
  {
    forall i, j :: 0 <= i < j < |s| ==> s[i] != s[j]
  }

  /** Position of the first occurrence of `x` in `s`. */
  function FirstIndex(s: seq<string>, x: string): (k: nat)
    requires x in s
    ensures k < |s| && s[k] == x && x !in s[..k]
  {
    if s[0] == x then 0
    else
      var k := FirstIndex(s[1..], x);
      assert s[..k + 1] == [s[0]] + s[1..][..k];
      k + 1
  }

  /** The elements of `t` appear in the order in which `s` first mentions them. */
  ghost predicate InFirstSeenOrder(t: seq<string>, s: seq<string>)
  {
    forall i, j :: 0 <= i < j < |t| ==>
      t[i] in s && t[j] in s && FirstIndex(s, t[i]) < FirstIndex(s, t[j])
  }

  /** Inserting into an insertion-ordered dictionary, one key after another:
      a new key is appended, a known one keeps its place. */
  function Distinct(s: seq<string>): (d: seq<string>)
    ensures NoDup(d)
    ensures forall x :: x in d <==> x in s
  {
    if |s| == 0 then []
    else
      var d := Distinct(s[..|s| - 1]);
      assert forall x :: x in s <==> x in s[..|s| - 1] || x == s[|s| - 1] by {
        assert s == s[..|s| - 1] + [s[|s| - 1]];
      }
      if s[|s| - 1] in d then d else d + [s[|s| - 1]]
  }

  /** Coordinators of the reachable addresses, once each, in first-seen order. */
  function Coordinators(net: Network, addrs: seq<string>): seq<string>
  {
    Distinct(Reports(net, addrs))
  }

  lemma {:induction false} FirstIndexOfPrefix(s: seq<string>, z: string, x: string)
    requires x in s
    ensures x in s + [z] && FirstIndex(s + [z], x) == FirstIndex(s, x)
  {
    if s[0] != x {
      assert (s + [z])[1..] == s[1..] + [z];
      FirstIndexOfPrefix(s[1..], z, x);
    }
  }

  /** Distinct keeps the coordinators in the order they were first reported. */
  lemma {:induction false} DistinctFirstSeen(s: seq<string>)
    ensures InFirstSeenOrder(Distinct(s), s)
  {
    if |s| > 0 {
      var s', z := s[..|s| - 1], s[|s| - 1];
      assert s == s' + [z];
      DistinctFirstSeen(s');
      var d' := Distinct(s');
      forall x | x in s'
        ensures x in s && FirstIndex(s, x) == FirstIndex(s', x)
      {
        FirstIndexOfPrefix(s', z, x);
      }
      if z !in d' {
        FreshIsLast(s', z);
      }
    }
  }

  /** `t` lists each element of `s` once, in first-seen order. */
  ghost predicate ListsFirstSeen(t: seq<string>, s: seq<string>)
  {
    NoDup(t) && (forall x :: x in t <==> x in s) && InFirstSeenOrder(t, s)
  }

  lemma FreshIsLast(s: seq<string>, z: string)
    requires z !in s
    ensures z in s + [z] && FirstIndex(s + [z], z) == |s|
  {
    var k := FirstIndex(s + [z], z);
    assert (s + [z])[k] == z;
  }

  /** An element `s` mentions for the first time at its end is the last
      entry of any first-seen listing of `s + [z]`. */
  lemma FreshAtEnd(s: seq<string>, z: string, t: seq<string>)
    requires z !in s
    requires ListsFirstSeen(t, s + [z])
    ensures |t| > 0 && t[|t| - 1] == z
  {
    FreshIsLast(s, z);
    assert z in t;
    var n := |t| - 1;
    var m :| 0 <= m < |t| && t[m] == z;
    var k := FirstIndex(s + [z], t[n]);
    forall i | 0 <= i < |t|
      ensures FirstIndex(s + [z], t[i]) <= k
    {
    }
    assert FirstIndex(s + [z], t[m]) == |s|;
    assert (s + [z])[k] == (s + [z])[|s|];
  }

  lemma PrefixMembers(s: seq<string>, z: string, t: seq<string>)
    requires z !in s && |t| > 0 && t[|t| - 1] == z && NoDup(t)
    requires forall x :: x in t <==> x in s + [z]
    ensures forall x :: x in t[..|t| - 1] <==> x in s
  {
    var t' := t[..|t| - 1];
    assert t == t' + [z];
    forall x
      ensures x in t' <==> x in s
    {
      if x in t' {
        var k :| 0 <= k < |t'| && t'[k] == x;
        assert t[k] == x && x != z;
        assert x in s + [z];
        var j :| 0 <= j < |s + [z]| && (s + [z])[j] == x;
        assert j < |s| && s[j] == x;
      }
      if x in s {
        var j :| 0 <= j < |s| && s[j] == x;
        assert (s + [z])[j] == x && x in t;
        var k :| 0 <= k < |t| && t[k] == x;
        assert k < |t'| && t'[k] == x;
      }
    }
  }

  lemma PrefixOrder(s: seq<string>, z: string, t: seq<string>)
    requires |t| > 0 && InFirstSeenOrder(t, s + [z])
    requires forall x :: x in t[..|t| - 1] ==> x in s
    ensures InFirstSeenOrder(t[..|t| - 1], s)
  {
    var t' := t[..|t| - 1];
    forall i, j | 0 <= i < j < |t'|
      ensures t'[i] in s && t'[j] in s && FirstIndex(s, t'[i]) < FirstIndex(s, t'[j])
    {
      assert t[i] == t'[i] && t[j] == t'[j];
      FirstIndexOfPrefix(s, z, t'[i]);
      FirstIndexOfPrefix(s, z, t'[j]);
    }
  }

  /** Dropping that last entry leaves a first-seen listing of `s`. */
  lemma DropFreshLast(s: seq<string>, z: string, t: seq<string>)
    requires z !in s
    requires ListsFirstSeen(t, s + [z])
    ensures |t| > 0 && t[|t| - 1] == z && ListsFirstSeen(t[..|t| - 1], s)
  {
    FreshAtEnd(s, z, t);
    PrefixMembers(s, z, t);
    PrefixOrder(s, z, t);
  }

  lemma MemberOrEmpty(t: seq<string>)
    ensures t == [] || t[0] in t
  {
  }

  lemma NoMembersEmpty(t: seq<string>)
    requires forall x :: x !in t
    ensures t == []
  {
    MemberOrEmpty(t);
  }

  /** An element `s` already mentions changes no first-seen listing. */
  lemma DropRepeatedLast(s: seq<string>, z: string, t: seq<string>)
    requires z in s
    requires ListsFirstSeen(t, s + [z])
    ensures ListsFirstSeen(t, s)
  {
    forall x | x in s
      ensures x in s + [z] && FirstIndex(s + [z], x) == FirstIndex(s, x)
    {
      FirstIndexOfPrefix(s, z, x);
    }
  }

  /** Distinct is the only duplicate-free sequence of the reported
      coordinators that lists them in first-seen order. */
  lemma {:induction false} DistinctUnique(s: seq<string>, t: seq<string>)
    requires ListsFirstSeen(t, s)
    ensures t == Distinct(s)
  {
    if |s| == 0 {
      NoMembersEmpty(t);
    } else {
      var s', z := s[..|s| - 1], s[|s| - 1];
      assert s == s' + [z];
      if z in s' {
        DropRepeatedLast(s', z, t);
        DistinctUnique(s', t);
      } else {
        DropFreshLast(s', z, t);
        DistinctUnique(s', t[..|t| - 1]);
        assert t == t[..|t| - 1] + [z];
      }
    }
  }

  lemma {:induction false} ReportsAppend(net: Network, a: seq<string>, b: seq<string>)
    ensures Reports(net, a + b) == Reports(net, a) + Reports(net, b)
  {
    if |a| > 0 {
      assert (a + b)[0] == a[0];
      assert (a + b)[1..] == a[1..] + b;
      ReportsAppend(net, a[1..], b);
    } else {
      assert a + b == b;
    }
  }

  /** A coordinator is reported exactly when some reachable address in the
      table names it as its coordinator. */
  lemma {:induction false} ReportsMembers(net: Network, addrs: seq<string>)
    ensures forall x :: x in Reports(net, addrs) <==>
      exists i :: 0 <= i < |addrs| && Probe(net, addrs[i]) == Some(x)
  {
    if |addrs| > 0 {
      ReportsMembers(net, addrs[1..]);
      assert forall i :: 0 < i < |addrs| ==> addrs[i] == addrs[1..][i - 1];
      forall x | exists i :: 0 <= i < |addrs| && Probe(net, addrs[i]) == Some(x)
        ensures x in Reports(net, addrs)
      {
        var i :| 0 <= i < |addrs| && Probe(net, addrs[i]) == Some(x);
        if i > 0 {
          assert Probe(net, addrs[1..][i - 1]) == Some(x);
        }
      }
    }
  }

  /** The targets are exactly the coordinators reported by reachable
      addresses: each group yields one target, and a speaker that follows
      another coordinator is a target only if some address names it as a
      coordinator. */
  lemma CoordinatorsAreReported(net: Network, addrs: seq<string>)
    ensures NoDup(Coordinators(net, addrs))
    ensures forall x :: x in Coordinators(net, addrs) <==>
      exists i :: 0 <= i < |addrs| && Probe(net, addrs[i]) == Some(x)
    ensures InFirstSeenOrder(Coordinators(net, addrs), Reports(net, addrs))
  {
    ReportsMembers(net, addrs);
    DistinctFirstSeen(Reports(net, addrs));
  }

  /** A skipped address contributes nothing: dropping it from the table
      leaves the coordinators, and their order, unchanged. */
  lemma SkippedContributesNothing(net: Network, addrs: seq<string>, i: nat)
    requires i < |addrs| && Probe(net, addrs[i]).None?
    ensures Coordinators(net, addrs[..i] + addrs[i + 1..]) == Coordinators(net, addrs)
  {
    var pre, ip, post := addrs[..i], addrs[i], addrs[i + 1..];
    assert addrs == pre + ([ip] + post);
    assert Reports(net, [ip]) == [] by {
      assert [ip][1..] == [];
    }
    ReportsAppend(net, [ip], post);
    assert Reports(net, [ip] + post) == Reports(net, post);
    ReportsAppend(net, pre, [ip] + post);
    ReportsAppend(net, pre, post);
  }

  /** Python's `any(...)` over the coordinators' transport states: stops at
      the first PLAYING coordinator; a state query that raises before that
      point escapes (None). */
  function AnyPlaying(net: Network, coords: seq<string>): (r: Option<bool>)
    ensures r == Some(true) ==> exists i :: 0 <= i < |coords| && StateOf(net, coords[i]) == Some(PLAYING)
    ensures r == Some(false) <==> forall i :: 0 <= i < |coords| ==>
      StateOf(net, coords[i]).Some? && StateOf(net, coords[i]) != Some(PLAYING)
    ensures r.None? ==> exists i :: 0 <= i < |coords| && StateOf(net, coords[i]).None?
    ensures r == Some(true) <==>
      exists i :: 0 <= i < |coords| && StateOf(net, coords[i]) == Some(PLAYING) &&
        (forall j :: 0 <= j < i ==> StateOf(net, coords[j]).Some?)
  {
    if |coords| == 0 then Some(false)
    else match StateOf(net, coords[0])
      case None => None
      case Some(s) =>
        if s == PLAYING then Some(true)
        else
          var r := AnyPlaying(net, coords[1..]);
          assert forall i :: 0 < i < |coords| ==> coords[i] == coords[1..][i - 1];
          r
  }

  /** When every coordinator answers, the result is exactly whether one of
      them is playing. */
  lemma AnyPlayingWhenAllAnswer(net: Network, coords: seq<string>)
    requires forall i :: 0 <= i < |coords| ==> StateOf(net, coords[i]).Some?
    ensures AnyPlaying(net, coords) == Some(exists i :: 0 <= i < |coords| && StateOf(net, coords[i]) == Some(PLAYING))
  {
  }

  /** The same action sent once to each coordinator, in order. */
  function Broadcast(coords: seq<string>, action: Action): (r: seq<Command>)
    ensures |r| == |coords|
    ensures forall i :: 0 <= i < |coords| ==> r[i] == Command(coords[i], action)
  {
    if |coords| == 0 then [] else [Command(coords[0], action)] + Broadcast(coords[1..], action)
  }

  /** With distinct coordinators, each receives the action exactly once. */
  lemma NoDupTail(s: seq<string>)
    requires |s| > 0 && NoDup(s)
    ensures NoDup(s[1..]) && s[0] !in s[1..]
  {
    forall i, j | 0 <= i < j < |s[1..]|
      ensures s[1..][i] != s[1..][j]
    {
      assert s[1..][i] == s[i + 1] && s[1..][j] == s[j + 1];
    }
    forall k | 0 <= k < |s[1..]|
      ensures s[1..][k] != s[0]
    {
      assert s[1..][k] == s[k + 1];
    }
  }

  lemma {:induction false} BroadcastOnce(coords: seq<string>, action: Action, c: string)
    requires NoDup(coords)
    ensures multiset(Broadcast(coords, action))[Command(c, action)] == if c in coords then 1 else 0
  {
    if |coords| > 0 {
      NoDupTail(coords);
      BroadcastOnce(coords[1..], action, c);
      var head := Command(coords[0], action);
      var rest := Broadcast(coords[1..], action);
      assert Broadcast(coords, action) == [head] + rest;
      assert multiset(Broadcast(coords, action)) == multiset([head]) + multiset(rest);
      assert multiset([head])[Command(c, action)] == if c == coords[0] then 1 else 0;
      assert c in coords <==> c == coords[0] || c in coords[1..] by {
        assert coords == [coords[0]] + coords[1..];
      }
    }
  }

  /** Targets of the commands that raised, in order; each is logged and the
      loop carries on. */
  function Failures(cmds: seq<Command>, failing: set<Command>): (r: seq<string>)
    ensures forall x :: x in r <==> exists i :: 0 <= i < |cmds| && cmds[i].target == x && cmds[i] in failing
  {
    if |cmds| == 0 then []
    else
      var rest := Failures(cmds[1..], failing);
      assert forall i :: 0 < i < |cmds| ==> cmds[i] == cmds[1..][i - 1];
      if cmds[0] in failing then [cmds[0].target] + rest else rest
  }

  /** What one run reports: its commands and ending, the skipped addresses,
      the names of the targeted coordinators and the coordinators whose
      command raised. */
  datatype Summary = Summary(run: Run, skipped: seq<string>, targets: seq<string>, errors: seq<string>)

  /** One whole run of a global-toggle script over the address table `addrs`. */
  function Toggle(net: Network, addrs: seq<string>, failing: set<Command>): (r: Summary)
    requires Resolved(net, addrs)
    ensures r.skipped == Skipped(net, addrs)
    ensures !r.run.verdict.Finished? ==> r.run.commands == [] && r.targets == [] && r.errors == []
  {
    var coords := Coordinators(net, addrs);
    var skipped := Skipped(net, addrs);
    if |coords| == 0 then Summary(Run([], Aborted(NO_SPEAKERS)), skipped, [], [])
    else match AnyPlaying(net, coords)
      case None => Summary(Run([], Crashed), skipped, [], [])
      case Some(playing) =>
        var action: Action := if playing then Pause else Play;
        var cmds := Broadcast(coords, action);
        CoordinatorsAreReported(net, addrs);
        var names := seq(|coords|, i requires 0 <= i < |coords| => net[coords[i]].name);
        Summary(Run(cmds, Finished(action)), skipped, names, Failures(cmds, failing))
  }

  /** The run exits before any query or command exactly when no address in
      the table is reachable. */
  lemma ToggleExitsWhenNothingReachable(net: Network, addrs: seq<string>, failing: set<Command>)
    requires Resolved(net, addrs)
    ensures (Toggle(net, addrs, failing).run == Run([], Aborted(NO_SPEAKERS))) <==>
      forall i :: 0 <= i < |addrs| ==> Probe(net, addrs[i]).None?
  {
    CoordinatorsAreReported(net, addrs);
    var coords := Coordinators(net, addrs);
    if exists i :: 0 <= i < |addrs| && Probe(net, addrs[i]).Some? {
      var i :| 0 <= i < |addrs| && Probe(net, addrs[i]).Some?;
      assert Probe(net, addrs[i]).value in coords;
    } else {
      NoMembersEmpty(coords);
    }
  }

  /** The global action is pause exactly when some coordinator reports
      PLAYING; the run finishes whenever every coordinator answers. */
  lemma TogglePausesIffAnyPlaying(net: Network, addrs: seq<string>, failing: set<Command>)
    requires Resolved(net, addrs)
    ensures var r := Toggle(net, addrs, failing);
      r.run.verdict.Finished? ==>
        (r.run.verdict.action == Pause <==>
          exists c :: c in Coordinators(net, addrs) && StateOf(net, c) == Some(PLAYING))
    ensures var coords := Coordinators(net, addrs);
      |coords| > 0 && (forall c :: c in coords ==> StateOf(net, c).Some?) ==>
        Toggle(net, addrs, failing).run.verdict.Finished?
    ensures var coords := Coordinators(net, addrs);
      Toggle(net, addrs, failing).run.verdict.Crashed? <==> |coords| > 0 && AnyPlaying(net, coords).None?
    ensures var coords := Coordinators(net, addrs);
      (exists i :: 0 <= i < |coords| && StateOf(net, coords[i]) == Some(PLAYING) &&
        (forall j :: 0 <= j < i ==> StateOf(net, coords[j]).Some?)) ==>
        Toggle(net, addrs, failing).run.verdict == Finished(Pause)
    ensures var r := Toggle(net, addrs, failing);
      r.run.verdict.Finished? ==> r.run.commands == Broadcast(Coordinators(net, addrs), r.run.verdict.action)
  {
    var coords := Coordinators(net, addrs);
    if |coords| > 0 {
      match AnyPlaying(net, coords)
      case None =>
      case Some(b) =>
        if !b {
          forall c | c in coords
            ensures StateOf(net, c) != Some(PLAYING)
          {
            var i :| 0 <= i < |coords| && coords[i] == c;
          }
        }
    }
  }

  /** Every coordinator receives the one action exactly once, and no other
      speaker receives anything. */
  lemma ToggleSendsOncePerCoordinator(net: Network, addrs: seq<string>, failing: set<Command>, c: string)
    requires Resolved(net, addrs)
    ensures var r := Toggle(net, addrs, failing);
      r.run.verdict.Finished? ==>
        && |r.run.commands| == |Coordinators(net, addrs)|
        && (forall i :: 0 <= i < |r.run.commands| ==> r.run.commands[i].op == r.run.verdict.action)
        && multiset(r.run.commands)[Command(c, r.run.verdict.action)] ==
             if c in Coordinators(net, addrs) then 1 else 0
  {
    var r := Toggle(net, addrs, failing);
    if r.run.verdict.Finished? {
      CoordinatorsAreReported(net, addrs);
      BroadcastOnce(Coordinators(net, addrs), r.run.verdict.action, c);
    }
  }

  /** A command that raises on one coordinator changes nothing about what is
      sent to the others: the commands do not depend on which of them fail,
      and exactly the failing ones are logged. */
  lemma ToggleFailuresAreIsolated(net: Network, addrs: seq<string>, f1: set<Command>, f2: set<Command>)
    requires Resolved(net, addrs)
    ensures Toggle(net, addrs, f1).run == Toggle(net, addrs, f2).run
    ensures var r := Toggle(net, addrs, f1);
      r.run.verdict.Finished? ==>
        forall x :: x in r.errors <==>
          x in Coordinators(net, addrs) && Command(x, r.run.verdict.action) in f1
  {
    var r := Toggle(net, addrs, f1);
    if r.run.verdict.Finished? {
      var coords := Coordinators(net, addrs);
      assert forall i :: 0 <= i < |coords| ==> r.run.commands[i] == Command(coords[i], r.run.verdict.action);
    }
  }

  /** The summary names one target per distinct coordinator, in the order
      the walk first met each coordinator. */
  lemma ToggleTargetsFirstSeen(net: Network, addrs: seq<string>, failing: set<Command>)
    requires Resolved(net, addrs)
    ensures var r := Toggle(net, addrs, failing);
      var coords := Coordinators(net, addrs);
      r.run.verdict.Finished? ==>
        && |r.targets| == |coords|
        && NoDup(coords)
        && InFirstSeenOrder(coords, Reports(net, addrs))
        && forall i :: 0 <= i < |coords| ==> coords[i] in net && r.targets[i] == net[coords[i]].name
  {
    CoordinatorsAreReported(net, addrs);
  }
}

=== FILE: house_gym_toggle.dfy ===
/** The House-or-Gym toggle (cc_gym_sonos_.py): House coordinates when it is
    reachable and Gym is pulled into its group; otherwise Gym plays on its
    own. The coordinator then pauses when playing, and otherwise plays,
    loading a fixed station first when its queue is empty. Any failure while
    reading the state or toggling ends the run with a message. */
module HouseGymToggle {
  import opened Sonos
  import HouseToggle

  const STATION_URI: string :=
    "x-sonosapi-hls:Api%3atune%3aliveAudio%3a9416%3a77852d23-b342-3388-b95d-23e28b3f640c?sid=37&flags=288&sn=31"
  const NO_SPEAKERS: string := "No reachable Sonos speakers."
  const NO_STATE: string := "Unable to read transport state."
  const PLAYBACK_ERROR: string := "Playback error"

  /** `queue_empty`: only a reported size of zero counts as empty; when the
      older length call also fails the queue counts as non-empty. Only a
      missing size call is caught, so a size call that raises escapes (None). */
  function QueueEmpty(spk: Speaker): (r: Option<bool>)
    ensures r.None? <==> spk.queueSize.Failed?
    ensures r == Some(true) <==>
      || spk.queueSize == Answer(0)
      || (spk.queueSize.Missing? && spk.queueLength == Answer(0))
  {
    match spk.queueSize
    case Answer(n) => Some(n == 0)
    case Failed => None
    case Missing =>
      match spk.queueLength
      case Answer(n) => Some(n == 0)
      case _ => Some(false)
  }

  /** The two scripts' `queue_empty` agree whenever the size query answers;
      when the size call is missing and the length query fails too, House's
      script loads the station and this one does not. */
  lemma QueueEmptyVariantsCompared(spk: Speaker)
    ensures spk.queueSize.Answer? ==> QueueEmpty(spk) == Some(HouseToggle.QueueEmpty(spk))
    ensures spk.queueSize.Missing? && !spk.queueLength.Answer? ==>
      QueueEmpty(spk) == Some(false) && HouseToggle.QueueEmpty(spk)
    ensures spk.queueSize.Failed? ==> QueueEmpty(spk).None? && HouseToggle.QueueEmpty(spk)
  {
  }

  /** `play_station`: clear the queue, add the station, play. */
  function StationCommands(ip: string): seq<Command>
  {
    [Command(ip, ClearQueue), Command(ip, AddUriToQueue(STATION_URI)), Command(ip, Play)]
  }

  /** The queue of the speaker at `ip` after `cmds`, starting from `queue`.
      Only clearing and adding change it. */
  function QueueAfter(queue: seq<string>, cmds: seq<Command>, ip: string): seq<string>
    decreases |cmds|
  {
    if |cmds| == 0 then queue
    else
      var c := cmds[0];
      var next :=
        if c.target != ip then queue
        else match c.op
          case ClearQueue => []
          case AddUriToQueue(u) => queue + [u]
          case _ => queue;
      QueueAfter(next, cmds[1..], ip)
  }

  lemma {:induction false} QueueAfterConcat(queue: seq<string>, a: seq<Command>, b: seq<Command>, ip: string)
    ensures QueueAfter(queue, a + b, ip) == QueueAfter(QueueAfter(queue, a, ip), b, ip)
    decreases |a|
  {
    if |a| > 0 {
      assert (a + b)[0] == a[0];
      assert (a + b)[1..] == a[1..] + b;
      var c := a[0];
      var next :=
        if c.target != ip then queue
        else match c.op
          case ClearQueue => []
          case AddUriToQueue(u) => queue + [u]
          case _ => queue;
      QueueAfterConcat(next, a[1..], b, ip);
    } else {
      assert a + b == b;
    }
  }

  /** Commands that neither clear nor add leave every queue as it was. */
  lemma {:induction false} QueueAfterUntouched(queue: seq<string>, cmds: seq<Command>, ip: string)
    requires forall i :: 0 <= i < |cmds| ==> !cmds[i].op.ClearQueue? && !cmds[i].op.AddUriToQueue?
    ensures QueueAfter(queue, cmds, ip) == queue
  {
    if |cmds| > 0 {
      QueueAfterUntouched(queue, cmds[1..], ip);
    }
  }

  /** Whatever the queue held, the station sequence leaves exactly the
      station in it. */
  lemma StationLeavesOnlyStation(queue: seq<string>, ip: string)
    ensures QueueAfter(queue, StationCommands(ip), ip) == [STATION_URI]
  {
    var cmds := StationCommands(ip);
    assert QueueAfter(queue, cmds, ip) == QueueAfter([], cmds[1..], ip);
    assert cmds[1..][0] == cmds[1] && cmds[1..][1..] == cmds[2..];
    assert [] + [STATION_URI] == [STATION_URI];
    assert QueueAfter([], cmds[1..], ip) == QueueAfter([STATION_URI], cmds[2..], ip);
    assert QueueAfter([STATION_URI], cmds[2..], ip) == QueueAfter([STATION_URI], cmds[3..], ip);
    assert cmds[3..] == [];
  }

  /** House when it is reachable, otherwise Gym. */
  function Coordinator(net: Network): (r: Option<string>)
    ensures r.Some? ==> r.value in net && (r.value == HOUSE_IP || r.value == GYM_IP)
    ensures r.None? <==> HOUSE_IP !in net && GYM_IP !in net
    ensures r == Some(GYM_IP) ==> HOUSE_IP !in net
  {
    if HOUSE_IP in net then Some(HOUSE_IP)
    else if GYM_IP in net then Some(GYM_IP)
    else None
  }

  /** The grouping repair. With House reachable, a Gym that does not follow
      House leaves its own group when that has other members and then joins
      House; with House offline, Gym leaves a group it shares. Unjoin and
      join failures are ignored, so all of these are sent. None: Gym's group
      lookup raised, which nothing catches. */
  function Regroup(net: Network): (r: Option<seq<Command>>)
    ensures r.Some? ==> forall i :: 0 <= i < |r.value| ==> r.value[i].target == GYM_IP
    ensures r.Some? ==> forall i :: 0 <= i < |r.value| ==> r.value[i].op == Unjoin || r.value[i].op == Join(HOUSE_IP)
    ensures r.None? <==> GYM_IP in net && net[GYM_IP].group.None?
  {
    if GYM_IP !in net then Some([])
    else match net[GYM_IP].group
      case None => None
      case Some(g) =>
        var leave := if g.size > 1 then [Command(GYM_IP, Unjoin)] else [];
        if HOUSE_IP in net then
          if g.coordinator != HOUSE_IP then Some(leave + [Command(GYM_IP, Join(HOUSE_IP))]) else Some([])
        else Some(leave)
  }

  /** The toggle commands for the coordinator `ip` in state `state`, or None
      when the queue query raised. */
  function ToggleCommands(ip: string, spk: Speaker, state: string): (r: Option<seq<Command>>)
    ensures r.Some? ==> |r.value| > 0 && forall i :: 0 <= i < |r.value| ==> r.value[i].target == ip
    ensures r.Some? ==> forall i :: 0 <= i < |r.value| ==> r.value[i].op != Unjoin && !r.value[i].op.Join?
    ensures r.None? <==> state != PLAYING && spk.queueSize.Failed?
    ensures state == PLAYING ==> r == Some([Command(ip, Pause)])
    ensures r.Some? ==> r.value[|r.value| - 1] == Command(ip, if state == PLAYING then Pause else Play)
    ensures state != PLAYING && QueueEmpty(spk) == Some(false) ==> r == Some([Command(ip, Play)])
    ensures state != PLAYING && QueueEmpty(spk) == Some(true) ==>
      r == Some(StationCommands(ip) + [Command(ip, Play)])
  {
    if state == PLAYING then Some([Command(ip, Pause)])
    else match QueueEmpty(spk)
      case None => None
      case Some(empty) =>
        var play := Command(ip, Play);
        Some(if empty then StationCommands(ip) + [play] else [play])
  }

  /** Step 3 on the coordinator `ip`: read the state, then toggle. Every
      failure here ends the run with a message rather than a crash. */
  function CoordinatorStep(ip: string, spk: Speaker, failing: set<Command>): (r: Run)
    ensures forall i :: 0 <= i < |r.commands| ==> r.commands[i].target == ip
    ensures forall i :: 0 <= i < |r.commands| ==> r.commands[i].op != Unjoin && !r.commands[i].op.Join?
    ensures !r.verdict.Crashed?
    ensures r.verdict == Aborted(NO_STATE) <==> spk.state.None?
    ensures r.verdict.Finished? <==>
      && spk.state.Some?
      && ToggleCommands(ip, spk, spk.state.value).Some?
      && forall i :: 0 <= i < |ToggleCommands(ip, spk, spk.state.value).value| ==>
           ToggleCommands(ip, spk, spk.state.value).value[i] !in failing
    ensures r.verdict.Finished? ==>
      && r.commands == ToggleCommands(ip, spk, spk.state.value).value
      && r.verdict.action == if spk.state.value == PLAYING then Pause else Play
    ensures if spk.state.Some? && ToggleCommands(ip, spk, spk.state.value).Some?
      then r.commands <= ToggleCommands(ip, spk, spk.state.value).value
      else r.commands == []
  {
    match spk.state
    case None => Run([], Aborted(NO_STATE))
    case Some(state) =>
      match ToggleCommands(ip, spk, state)
      case None => Run([], Aborted(PLAYBACK_ERROR))
      case Some(cmds) =>
        var issued := IssueAll(cmds, failing);
        var action: Action := if state == PLAYING then Pause else Play;
        Run(issued.sent, if issued.ok then Finished(action) else Aborted(PLAYBACK_ERROR))
  }

  /** One run of the House-or-Gym toggle. */
  function Toggle(net: Network, failing: set<Command>): (r: Run)
    ensures Coordinator(net).None? ==> r == Run([], Aborted(NO_SPEAKERS))
    ensures r.verdict == Crashed <==> Coordinator(net).Some? && Regroup(net).None?
  {
    match Coordinator(net)
    case None => Run([], Aborted(NO_SPEAKERS))
    case Some(coord) =>
      match Regroup(net)
      case None => Run([], Crashed)
      case Some(grouping) =>
        var step := CoordinatorStep(coord, net[coord], failing);
        Run(grouping + step.commands, step.verdict)
  }

  /** Once the grouping is repaired, every later command goes to the coordinator. */
  lemma ToggleSplits(net: Network, failing: set<Command>)
    requires Coordinator(net).Some? && Regroup(net).Some?
    ensures var r := Toggle(net, failing);
      var grouping := Regroup(net).value;
      && |grouping| <= |r.commands|
      && r.commands[..|grouping|] == grouping
      && (forall i :: |grouping| <= i < |r.commands| ==> r.commands[i].target == Coordinator(net).value)
      && (forall i :: |grouping| <= i < |r.commands| ==> r.commands[i].op != Unjoin && !r.commands[i].op.Join?)
  {
    var coord := Coordinator(net).value;
    var step := CoordinatorStep(coord, net[coord], failing);
    assert Toggle(net, failing).commands == Regroup(net).value + step.commands;
  }

  /** With House reachable, the repair joins a Gym that does not follow
      House, unjoining it first only when its group has other members; the
      join is always the last repair command. */
  lemma RegroupWithHouse(net: Network)
    requires HOUSE_IP in net
    requires GYM_IP in net ==> net[GYM_IP].group.Some?
    ensures var g := Regroup(net).value;
      && (Command(GYM_IP, Join(HOUSE_IP)) in g <==>
            GYM_IP in net && net[GYM_IP].group.value.coordinator != HOUSE_IP)
      && (Command(GYM_IP, Unjoin) in g <==>
            GYM_IP in net && net[GYM_IP].group.value.coordinator != HOUSE_IP && net[GYM_IP].group.value.size > 1)
    ensures var g := Regroup(net).value;
      Command(GYM_IP, Unjoin) in g ==> g == [Command(GYM_IP, Unjoin), Command(GYM_IP, Join(HOUSE_IP))]
    ensures var g := Regroup(net).value;
      Command(GYM_IP, Join(HOUSE_IP)) in g ==> g[|g| - 1] == Command(GYM_IP, Join(HOUSE_IP))
  {
  }

  /** With House reachable, House is the coordinator: a Gym that does not
      follow House is joined to it, and unjoined first only when its group
      has more than one member, and then the unjoin comes first; a Gym
      already following House is left alone. */
  lemma ToggleHousePreferred(net: Network, failing: set<Command>)
    requires HOUSE_IP in net
    requires GYM_IP in net ==> net[GYM_IP].group.Some?
    ensures var r := Toggle(net, failing);
      && (Command(GYM_IP, Join(HOUSE_IP)) in r.commands <==>
            GYM_IP in net && net[GYM_IP].group.value.coordinator != HOUSE_IP)
      && (Command(GYM_IP, Unjoin) in r.commands <==>
            GYM_IP in net && net[GYM_IP].group.value.coordinator != HOUSE_IP && net[GYM_IP].group.value.size > 1)
    ensures var r := Toggle(net, failing);
      Command(GYM_IP, Unjoin) in r.commands ==>
        |r.commands| >= 2 && r.commands[..2] == [Command(GYM_IP, Unjoin), Command(GYM_IP, Join(HOUSE_IP))]
  {
    var step := CoordinatorStep(HOUSE_IP, net[HOUSE_IP], failing);
    assert Toggle(net, failing).commands == Regroup(net).value + step.commands;
    RegroupWithHouse(net);
    assert Command(GYM_IP, Join(HOUSE_IP)) !in step.commands;
    assert Command(GYM_IP, Unjoin) !in step.commands;
  }

  /** With House reachable, commands go only to House and Gym, and Gym
      receives nothing but the grouping repair. */
  lemma ToggleHouseGymTargets(net: Network, failing: set<Command>)
    requires HOUSE_IP in net
    requires GYM_IP in net ==> net[GYM_IP].group.Some?
    ensures var r := Toggle(net, failing);
      && (forall i :: 0 <= i < |r.commands| ==> r.commands[i].target == HOUSE_IP || r.commands[i].target == GYM_IP)
      && (forall i :: 0 <= i < |r.commands| && r.commands[i].target == GYM_IP ==>
            r.commands[i].op == Unjoin || r.commands[i].op == Join(HOUSE_IP))
  {
    var r := Toggle(net, failing);
    var grouping := Regroup(net).value;
    ToggleSplits(net, failing);
    forall i | 0 <= i < |grouping|
      ensures r.commands[i] == grouping[i]
    {
      assert r.commands[..|grouping|][i] == r.commands[i];
    }
  }

  /** With House offline, the repair unjoins Gym exactly when its group has
      more than one member, and does nothing else. */
  lemma RegroupWithoutHouse(net: Network)
    requires HOUSE_IP !in net && GYM_IP in net && net[GYM_IP].group.Some?
    ensures var g := Regroup(net).value;
      && (Command(GYM_IP, Unjoin) in g <==> net[GYM_IP].group.value.size > 1)
      && forall i :: 0 <= i < |g| ==> g[i] == Command(GYM_IP, Unjoin)
  {
  }

  /** With House offline, Gym coordinates and is unjoined exactly when its
      group has more than one member; it never joins anyone. */
  lemma ToggleGymFallback(net: Network, failing: set<Command>)
    requires HOUSE_IP !in net && GYM_IP in net && net[GYM_IP].group.Some?
    ensures var r := Toggle(net, failing);
      && (forall i :: 0 <= i < |r.commands| ==> r.commands[i].target == GYM_IP)
      && (Command(GYM_IP, Unjoin) in r.commands <==> net[GYM_IP].group.value.size > 1)
      && (forall i :: 0 <= i < |r.commands| ==> !r.commands[i].op.Join?)
  {
    var r := Toggle(net, failing);
    var grouping := Regroup(net).value;
    var step := CoordinatorStep(GYM_IP, net[GYM_IP], failing);
    RegroupWithoutHouse(net);
    assert r.commands == grouping + step.commands;
    assert Command(GYM_IP, Unjoin) !in step.commands;
    forall i | 0 <= i < |r.commands|
      ensures r.commands[i].target == GYM_IP && !r.commands[i].op.Join?
    {
      if i < |grouping| {
        assert r.commands[i] == grouping[i];
      } else {
        assert r.commands[i] == step.commands[i - |grouping|];
      }
    }
  }

  /** A run whose state read and toggle commands all succeed finishes, and
      only such a run does; it reports pause exactly when the coordinator
      was PLAYING, and play otherwise. */
  lemma TogglePausesIffPlaying(net: Network, failing: set<Command>)
    requires Coordinator(net).Some?
    ensures var r := Toggle(net, failing);
      var coord := Coordinator(net).value;
      r.verdict.Finished? ==>
        && net[coord].state.Some?
        && (r.verdict.action == Pause <==> net[coord].state.value == PLAYING)
        && (r.verdict.action == Pause <==> Command(coord, Pause) in r.commands)
    ensures var r := Toggle(net, failing);
      var coord := Coordinator(net).value;
      var spk := net[coord];
      r.verdict.Finished? <==>
        && Regroup(net).Some?
        && spk.state.Some?
        && ToggleCommands(coord, spk, spk.state.value).Some?
        && forall i :: 0 <= i < |ToggleCommands(coord, spk, spk.state.value).value| ==>
             ToggleCommands(coord, spk, spk.state.value).value[i] !in failing
  {
    ToggleFinishes(net, failing);
    var r := Toggle(net, failing);
    var coord := Coordinator(net).value;
    if r.verdict.Finished? {
      var grouping := Regroup(net).value;
      assert r.commands == grouping + CoordinatorStep(coord, net[coord], failing).commands;
      assert Command(coord, Pause) !in grouping;
      PauseOnlyWhenPlaying(coord, net[coord], net[coord].state.value);
    }
  }

  /** A run finishes exactly when its coordinator step does, and then it
      has sent the repair followed by the toggle commands. */
  lemma ToggleFinishes(net: Network, failing: set<Command>)
    requires Coordinator(net).Some?
    ensures var r := Toggle(net, failing);
      var coord := Coordinator(net).value;
      var step := CoordinatorStep(coord, net[coord], failing);
      && (r.verdict.Finished? <==> Regroup(net).Some? && step.verdict.Finished?)
      && (r.verdict.Finished? ==> r == Run(Regroup(net).value + step.commands, step.verdict))
  {
  }

  /** The toggle commands hold a pause exactly when the state is PLAYING. */
  lemma PauseOnlyWhenPlaying(ip: string, spk: Speaker, state: string)
    requires ToggleCommands(ip, spk, state).Some?
    ensures Command(ip, Pause) in ToggleCommands(ip, spk, state).value <==> state == PLAYING
  {
    var cmds := ToggleCommands(ip, spk, state).value;
    if state != PLAYING {
      assert forall i :: 0 <= i < |cmds| ==> cmds[i].op != Pause;
    }
  }

  /** When the coordinator is not playing, the station is loaded exactly
      when its queue is empty, and a finished run leaves the station alone
      in the queue whatever it held before. */
  lemma ToggleLoadsStationIffEmpty(net: Network, failing: set<Command>, queue: seq<string>)
    requires Coordinator(net).Some? && Regroup(net).Some?
    requires var coord := Coordinator(net).value;
      net[coord].state.Some? && net[coord].state.value != PLAYING && QueueEmpty(net[coord]).Some?
    ensures var r := Toggle(net, failing);
      var coord := Coordinator(net).value;
      && (Command(coord, ClearQueue) in r.commands <==> QueueEmpty(net[coord]) == Some(true))
      && (QueueEmpty(net[coord]) == Some(true) && r.verdict.Finished? ==>
            QueueAfter(queue, r.commands, coord) == [STATION_URI])
  {
    var r := Toggle(net, failing);
    var coord := Coordinator(net).value;
    var grouping := Regroup(net).value;
    var cmds := ToggleCommands(coord, net[coord], net[coord].state.value).value;
    var issued := IssueAll(cmds, failing);
    assert r.commands == grouping + issued.sent;
    assert Command(coord, ClearQueue) !in grouping;
    if QueueEmpty(net[coord]) == Some(true) {
      assert issued.sent[0] == Command(coord, ClearQueue);
      if r.verdict.Finished? {
        RepairThenStation(queue, grouping, coord);
      }
    } else {
      assert forall i :: 0 <= i < |issued.sent| ==> issued.sent[i].op != ClearQueue;
    }
  }

  /** A grouping repair followed by the station sequence and play leaves
      exactly the station in the coordinator's queue. */
  lemma RepairThenStation(queue: seq<string>, grouping: seq<Command>, ip: string)
    requires forall i :: 0 <= i < |grouping| ==> grouping[i].op == Unjoin || grouping[i].op.Join?
    ensures QueueAfter(queue, grouping + (StationCommands(ip) + [Command(ip, Play)]), ip) == [STATION_URI]
  {
    QueueAfterConcat(queue, grouping, StationCommands(ip) + [Command(ip, Play)], ip);
    QueueAfterUntouched(queue, grouping, ip);
    QueueAfterConcat(queue, StationCommands(ip), [Command(ip, Play)], ip);
    StationLeavesOnlyStation(queue, ip);
    QueueAfterUntouched([STATION_URI], [Command(ip, Play)], ip);
  }

  /** Within the coordinator step, the run ends with "Playback error"
      exactly when the queue query raised or a sent command raised, and a
      command that raised is the last one sent. */
  lemma StepFailures(ip: string, spk: Speaker, failing: set<Command>)
    ensures var r := CoordinatorStep(ip, spk, failing);
      r.verdict == Aborted(PLAYBACK_ERROR) <==>
        && spk.state.Some?
        && (|| ToggleCommands(ip, spk, spk.state.value).None?
            || exists i :: 0 <= i < |r.commands| && r.commands[i] in failing)
    ensures var r := CoordinatorStep(ip, spk, failing);
      r.verdict == Aborted(PLAYBACK_ERROR) && |r.commands| > 0 ==> r.commands[|r.commands| - 1] in failing
  {
  }

  /** A transport state that cannot be read ends the run with a message
      after the grouping repair; a queue query, pause, play or station
      command that raises ends it at that command, which is the last one
      sent. Failures of the grouping repair do not. */
  lemma ToggleFailuresAbort(net: Network, failing: set<Command>)
    requires Coordinator(net).Some? && Regroup(net).Some?
    ensures var r := Toggle(net, failing);
      var coord := Coordinator(net).value;
      net[coord].state.None? ==> r == Run(Regroup(net).value, Aborted(NO_STATE))
    ensures var r := Toggle(net, failing);
      r.verdict == Aborted(NO_STATE) <==> net[Coordinator(net).value].state.None?
    ensures var r := Toggle(net, failing);
      r.verdict == Aborted(PLAYBACK_ERROR) <==>
        var coord := Coordinator(net).value;
        && net[coord].state.Some?
        && (|| ToggleCommands(coord, net[coord], net[coord].state.value).None?
            || exists i :: |Regroup(net).value| <= i < |r.commands| && r.commands[i] in failing)
    ensures var r := Toggle(net, failing);
      r.verdict == Aborted(PLAYBACK_ERROR) && |r.commands| > |Regroup(net).value| ==>
        r.commands[|r.commands| - 1] in failing
  {
    var coord := Coordinator(net).value;
    var step := CoordinatorStep(coord, net[coord], failing);
    assert Toggle(net, failing) == Run(Regroup(net).value + step.commands, step.verdict);
    StepFailures(coord, net[coord], failing);
    FailuresAfter(Regroup(net).value, step.commands, failing);
  }

  /** A command after the prefix `pre` raises exactly when one of `post` does. */
  lemma FailuresAfter(pre: seq<Command>, post: seq<Command>, failing: set<Command>)
    ensures (exists i :: |pre| <= i < |pre + post| && (pre + post)[i] in failing) <==>
            (exists i :: 0 <= i < |post| && post[i] in failing)
  {
    forall i | 0 <= i < |post|
      ensures (pre + post)[|pre| + i] == post[i]
    {
    }
    forall i | |pre| <= i < |pre + post|
      ensures (pre + post)[i] == post[i - |pre|]
    {
    }
  }

  /** Unjoin and join failures are swallowed: whether a grouping repair
      command raises changes nothing about the run. */
  lemma ToggleIgnoresGroupingFailures(net: Network, failing: set<Command>)
    ensures var repair := if Regroup(net).Some? then set i | 0 <= i < |Regroup(net).value| :: Regroup(net).value[i] else {};
      Toggle(net, failing + repair) == Toggle(net, failing - repair)
  {
    var repair := if Regroup(net).Some? then set i | 0 <= i < |Regroup(net).value| :: Regroup(net).value[i] else {};
    if Coordinator(net).Some? && Regroup(net).Some? {
      var coord := Coordinator(net).value;
      var spk := net[coord];
      if spk.state.Some? && ToggleCommands(coord, spk, spk.state.value).Some? {
        var cmds := ToggleCommands(coord, spk, spk.state.value).value;
        forall i | 0 <= i < |cmds|
          ensures cmds[i] in failing + repair <==> cmds[i] in failing - repair
        {
          assert cmds[i] !in repair;
        }
        IssueAllSameFailures(cmds, failing + repair, failing - repair);
      }
    }
  }
}

=== FILE: house_toggle.dfy ===
/** The House resume toggle (CC_Sonos.py): one preferred speaker, House, that
    pauses when playing and otherwise resumes exactly where it was, falling
    back to a favourite station (or a test tone) only when there is no media.
    When House has been pulled into another speaker's group, it takes over
    that speaker's track and position before leaving the group. */
module HouseToggle {
  import opened Sonos
  import opened Text

  const FAVOURITE: string := "Eclectic Rock Radio"
  const TONE_URI: string := "x-rincon-mp3radio://tone@440"
  const HOUSE_UNREACHABLE: string := "House unreachable."

  /** `queue_empty`: the queue size, through the older length call when the
      size call does not exist; any query that raises reads as empty. */
  function QueueEmpty(spk: Speaker): (r: bool)
    ensures !r <==>
      || (spk.queueSize.Answer? && spk.queueSize.value > 0)
      || (spk.queueSize.Missing? && spk.queueLength.Answer? && spk.queueLength.value > 0)
  {
    match spk.queueSize
    case Answer(n) => n == 0
    case Failed => true
    case Missing =>
      match spk.queueLength
      case Answer(n) => n == 0
      case _ => true
  }

  function OrEmpty(s: Option<string>): string
  {
    match s
    case Some(v) => v
    case None => ""
  }

  /** `current_uri`: the uri of the current track, "" when there is none or
      the track query raises. */
  function CurrentUri(spk: Speaker): (r: string)
    ensures r != "" ==> spk.track.Some? && spk.track.value.uri == Some(r)
    ensures spk.track.None? ==> r == ""
    ensures spk.track.Some? && spk.track.value.uri.Some? ==> r == spk.track.value.uri.value
  {
    match spk.track
    case None => ""
    case Some(info) => OrEmpty(info.uri)
  }

  /** A position worth seeking to: present, non-empty and not a placeholder. */
  predicate SeekWorthy(pos: Option<string>)
  {
    pos.Some? && pos.value != "" && pos.value != "0:00:00" && pos.value != "NOT_IMPLEMENTED"
  }

  function TrackOf(net: Network, ip: string): Option<TrackInfo>
  {
    if ip in net then net[ip].track else None
  }

  /** The uri `src` is playing, when its track can be read and the uri is non-empty. */
  function SourceUri(net: Network, src: string): Option<string>
  {
    match TrackOf(net, src)
    case None => None
    case Some(info) => if OrEmpty(info.uri) == "" then None else Some(info.uri.value)
  }

  /** Result of `resume_from_other`: whether it reports success, and what it sent. */
  datatype Resumed = Resumed(ok: bool, commands: seq<Command>)

  /** `resume_from_other(src, dest)`: play the track `src` is playing on
      `dest` and seek to its position when that is worth it. */
  function ResumeFromOther(net: Network, src: string, dest: string, failing: set<Command>): (r: Resumed)
    ensures forall i :: 0 <= i < |r.commands| ==> r.commands[i].target == dest
    ensures SourceUri(net, src).None? ==> r == Resumed(false, [])
    ensures SourceUri(net, src).Some? ==>
      |r.commands| > 0 && r.commands[0] == Command(dest, PlayUri(SourceUri(net, src).value))
    ensures r.ok <==>
      SourceUri(net, src).Some? && Command(dest, PlayUri(SourceUri(net, src).value)) !in failing
    ensures Issues(r.commands, IsSeek) <==> r.ok && SeekWorthy(TrackOf(net, src).value.position)
    ensures |r.commands| <= 2
    ensures |r.commands| ==
      if SourceUri(net, src).None? then 0
      else if r.ok && SeekWorthy(TrackOf(net, src).value.position) then 2
      else 1
    ensures forall i :: 0 <= i < |r.commands| && r.commands[i].op.Seek? ==>
      i == 1 && r.commands[i].op.position == TrackOf(net, src).value.position.value
  {
    match TrackOf(net, src)
    case None => Resumed(false, [])
    case Some(info) =>
      if OrEmpty(info.uri) == "" then Resumed(false, [])
      else
        var play := Command(dest, PlayUri(info.uri.value));
        assert !IsSeek(play);
        if play in failing then Resumed(false, [play])
        else if SeekWorthy(info.position) then
          var seek := Command(dest, Seek(info.position.value));
          assert IsSeek([play, seek][1]);
          Resumed(true, [play, seek])
        else Resumed(true, [play])
  }

  /** The favourite lookup compares lower-cased text and accepts a title
      that merely contains the wanted name. */
  predicate TitleMatches(title: string)
  {
    Contains(Lower(title), Lower(FAVOURITE))
  }

  predicate ModernMatch(f: Favourite)
  {
    TitleMatches(f.title)
  }

  predicate LegacyMatch(f: LegacyFavourite)
  {
    TitleMatches(OrEmpty(f.title))
  }

  /** The play_uri the music-library stage sends, if it gets that far: the
      first resource of the first matching favourite. */
  function ModernAttempt(ip: string, spk: Speaker, modern: bool): (r: Option<Command>)
    ensures r.Some? <==>
      modern && spk.favourites.Some? &&
      exists i: nat :: IsFirst(spk.favourites.value, ModernMatch, i) && |spk.favourites.value[i].resources| > 0
    ensures r.Some? ==>
      exists i: nat :: IsFirst(spk.favourites.value, ModernMatch, i) && |spk.favourites.value[i].resources| > 0 &&
        r.value == Command(ip, PlayUri(spk.favourites.value[i].resources[0]))
  {
    if !modern || spk.favourites.None? then None
    else
      var favs := spk.favourites.value;
      match FirstMatch(favs, ModernMatch)
      case None => None
      case Some(i) =>
        FirstUnique(favs, ModernMatch, i);
        if |favs[i].resources| == 0 then None
        else Some(Command(ip, PlayUri(favs[i].resources[0])))
  }

  /** The play_uri the legacy stage sends, if it gets that far. */
  function LegacyAttempt(ip: string, spk: Speaker): (r: Option<Command>)
    ensures r.Some? <==>
      spk.legacyFavourites.Some? && exists i: nat :: IsFirst(spk.legacyFavourites.value, LegacyMatch, i)
    ensures r.Some? ==>
      exists i: nat :: IsFirst(spk.legacyFavourites.value, LegacyMatch, i) &&
        r.value == Command(ip, PlayUri(OrEmpty(spk.legacyFavourites.value[i].uri)))
  {
    if spk.legacyFavourites.None? then None
    else
      var favs := spk.legacyFavourites.value;
      match FirstMatch(favs, LegacyMatch)
      case None => None
      case Some(i) =>
        assert IsFirst(favs, LegacyMatch, i);
        Some(Command(ip, PlayUri(OrEmpty(favs[i].uri))))
  }

  datatype Source = FromModern | FromLegacy | FromTone

  /** What `play_station` sent and which stage it stopped at. */
  datatype Station = Station(commands: seq<Command>, source: Source)

  function Attempted(a: Option<Command>): seq<Command>
  {
    match a
    case Some(c) => [c]
    case None => []
  }

  /** `play_station`: the music-library favourites, then the legacy
      favourites, then the test tone. A stage that finds nothing, or whose
      play_uri raises, hands over to the next. */
  function PlayStation(ip: string, spk: Speaker, modern: bool, failing: set<Command>): (r: Station)
    ensures 1 <= |r.commands| <= 3
    ensures forall i :: 0 <= i < |r.commands| ==> r.commands[i].target == ip && r.commands[i].op.PlayUri?
    ensures r.source == FromModern <==>
      ModernAttempt(ip, spk, modern).Some? && ModernAttempt(ip, spk, modern).value !in failing
    ensures r.source == FromModern ==> r.commands == [ModernAttempt(ip, spk, modern).value]
    ensures r.source == FromLegacy ==>
      && LegacyAttempt(ip, spk).Some?
      && r.commands == Attempted(ModernAttempt(ip, spk, modern)) + [LegacyAttempt(ip, spk).value]
    ensures r.source == FromTone <==>
      && (ModernAttempt(ip, spk, modern).None? || ModernAttempt(ip, spk, modern).value in failing)
      && (LegacyAttempt(ip, spk).None? || LegacyAttempt(ip, spk).value in failing)
    ensures r.source == FromTone ==>
      r.commands == Attempted(ModernAttempt(ip, spk, modern)) + Attempted(LegacyAttempt(ip, spk)) + [Command(ip, PlayUri(TONE_URI))]
  {
    var m := ModernAttempt(ip, spk, modern);
    if m.Some? && m.value !in failing then Station([m.value], FromModern)
    else
      var l := LegacyAttempt(ip, spk);
      if l.Some? && l.value !in failing then Station(Attempted(m) + [l.value], FromLegacy)
      else Station(Attempted(m) + Attempted(l) + [Command(ip, PlayUri(TONE_URI))], FromTone)
  }

  /** The station played is the first favourite, in list order, whose
      lower-cased title contains the lower-cased name: a title like
      "My Eclectic Rock Radio (HD)" is found too. */
  lemma PlayStationPicksFirstMatch(ip: string, spk: Speaker, failing: set<Command>, i: nat)
    requires spk.favourites.Some? && IsFirst(spk.favourites.value, ModernMatch, i)
    requires |spk.favourites.value[i].resources| > 0
    ensures var r := PlayStation(ip, spk, true, failing);
      var play := Command(ip, PlayUri(spk.favourites.value[i].resources[0]));
      && r.commands[0] == play
      && (play !in failing ==> r.commands == [play])
  {
  }

  /** The tone is the only thing played when neither favourite list holds
      a matching title. */
  lemma PlayStationToneWithoutMatch(ip: string, spk: Speaker, modern: bool, failing: set<Command>)
    requires !modern || spk.favourites.None? ||
      forall j :: 0 <= j < |spk.favourites.value| ==> !ModernMatch(spk.favourites.value[j])
    requires spk.legacyFavourites.None? ||
      forall j :: 0 <= j < |spk.legacyFavourites.value| ==> !LegacyMatch(spk.legacyFavourites.value[j])
    ensures PlayStation(ip, spk, modern, failing) == Station([Command(ip, PlayUri(TONE_URI))], FromTone)
  {
    assert ModernAttempt(ip, spk, modern).None?;
    assert LegacyAttempt(ip, spk).None?;
  }

  /** Whenever the tone is played, the first matching music-library
      favourite, if there is one with a resource, could not be started. */
  lemma PlayStationToneMeansModernFailed(ip: string, spk: Speaker, failing: set<Command>, i: nat)
    requires spk.favourites.Some? && IsFirst(spk.favourites.value, ModernMatch, i)
    requires |spk.favourites.value[i].resources| > 0
    requires PlayStation(ip, spk, true, failing).source == FromTone
    ensures Command(ip, PlayUri(spk.favourites.value[i].resources[0])) in failing
  {
    PlayStationPicksFirstMatch(ip, spk, failing, i);
  }

  /** When the music-library stage hands over, the legacy stage plays the
      uri of the first legacy favourite whose lower-cased title contains the
      name (an absent uri is sent as ""); only if that raises does the tone
      follow. */
  lemma PlayStationPicksFirstLegacyMatch(ip: string, spk: Speaker, modern: bool, failing: set<Command>, i: nat)
    requires ModernAttempt(ip, spk, modern).None? || ModernAttempt(ip, spk, modern).value in failing
    requires spk.legacyFavourites.Some? && IsFirst(spk.legacyFavourites.value, LegacyMatch, i)
    ensures var r := PlayStation(ip, spk, modern, failing);
      var play := Command(ip, PlayUri(OrEmpty(spk.legacyFavourites.value[i].uri)));
      var tone := Command(ip, PlayUri(TONE_URI));
      && r.commands == Attempted(ModernAttempt(ip, spk, modern)) + [play] + (if play in failing then [tone] else [])
      && (r.source == FromLegacy <==> play !in failing)
  {
    FirstUnique(spk.legacyFavourites.value, LegacyMatch, i);
  }

  /** House follows a coordinator other than itself. A failed lookup counts
      as not following anyone. */
  predicate External(house: Speaker)
  {
    house.group.Some? && house.group.value.coordinator != HOUSE_IP
  }

  /** The closing `pause()`/`play()` on House; nothing catches its failure. */
  function Final(prefix: seq<Command>, action: Action, failing: set<Command>): (r: Run)
    ensures r.commands == prefix + [Command(HOUSE_IP, action)]
    ensures r.verdict.Finished? ==> r.verdict.action == action
  {
    var c := Command(HOUSE_IP, action);
    Run(prefix + [c], if c in failing then Crashed else Finished(action))
  }

  /** The Gym step: Gym is unjoined when it follows House. */
  function KickGym(net: Network): (r: seq<Command>)
    requires GYM_IP in net ==> net[GYM_IP].group.Some?
    ensures r == [] || r == [Command(GYM_IP, Unjoin)]
    ensures r != [] <==> GymFollowsHouse(net)
  {
    if GYM_IP in net && net[GYM_IP].group.value.coordinator == HOUSE_IP
    then [Command(GYM_IP, Unjoin)] else []
  }

  /** The House step: what is decided and sent to House once it is known to
      be reachable. */
  function HouseStep(net: Network, modern: bool, failing: set<Command>): (r: Run)
    requires HOUSE_IP in net
    ensures forall i :: 0 <= i < |r.commands| ==> r.commands[i].target == HOUSE_IP
    ensures !r.verdict.Aborted?
    ensures r.verdict.Finished? ==>
      (r.verdict.action == Pause <==> !External(net[HOUSE_IP]) && net[HOUSE_IP].state == Some(PLAYING))
    ensures r.verdict.Crashed? <==>
      var house := net[HOUSE_IP];
      && !External(house)
      && (|| house.state.None?
          || (&& !(house.state.value == PAUSED_PLAYBACK && CurrentUri(house) == "")
              && |r.commands| > 0 && r.commands[|r.commands| - 1] in failing))
  {
    var house := net[HOUSE_IP];
    if External(house) then
      var resumed := ResumeFromOther(net, house.group.value.coordinator, HOUSE_IP, failing);
      var station := if resumed.ok then [] else PlayStation(HOUSE_IP, house, modern, failing).commands;
      Run(resumed.commands + [Command(HOUSE_IP, Unjoin)] + station, Finished(Play))
    else
      match house.state
      case None => Run([], Crashed)
      case Some(state) =>
        if state == PLAYING then Final([], Pause, failing)
        else if state == PAUSED_PLAYBACK then
          if CurrentUri(house) != "" then Final([], Play, failing)
          else Run(PlayStation(HOUSE_IP, house, modern, failing).commands, Finished(Play))
        else
          var station :=
            if QueueEmpty(house) || CurrentUri(house) == ""
            then PlayStation(HOUSE_IP, house, modern, failing).commands else [];
          Final(station, Play, failing)
  }

  /** One run of the House toggle. `modern` says whether the music-library
      module could be imported. */
  function Toggle(net: Network, modern: bool, failing: set<Command>): (r: Run)
    ensures HOUSE_IP !in net ==> r == Run([], Aborted(HOUSE_UNREACHABLE))
    ensures r.verdict.Aborted? <==> HOUSE_IP !in net
    ensures HOUSE_IP in net && GYM_IP in net && net[GYM_IP].group.None? ==> r == Run([], Crashed)
  {
    if HOUSE_IP !in net then Run([], Aborted(HOUSE_UNREACHABLE))
    else if GYM_IP in net && net[GYM_IP].group.None? then Run([], Crashed)
    else
      var step := HouseStep(net, modern, failing);
      Run(KickGym(net) + step.commands, step.verdict)
  }

  /** House is reachable and the Gym lookup did not raise. */
  predicate Proceeds(net: Network)
  {
    HOUSE_IP in net && (GYM_IP in net ==> net[GYM_IP].group.Some?)
  }

  predicate GymFollowsHouse(net: Network)
  {
    GYM_IP in net && net[GYM_IP].group.Some? && net[GYM_IP].group.value.coordinator == HOUSE_IP
  }

  /** Gym receives a command only when it is reachable and follows House;
      then it is unjoined, before anything else is sent. */
  lemma ToggleKicksGymFollower(net: Network, modern: bool, failing: set<Command>)
    requires Proceeds(net)
    ensures var r := Toggle(net, modern, failing);
      && (GymFollowsHouse(net) ==> |r.commands| > 0 && r.commands[0] == Command(GYM_IP, Unjoin))
      && (forall i :: 0 <= i < |r.commands| && r.commands[i].target == GYM_IP ==>
            i == 0 && r.commands[i] == Command(GYM_IP, Unjoin) && GymFollowsHouse(net))
  {
  }

  /** When House follows another coordinator the action is always play and
      House leaves that group; the station is loaded afterwards exactly when
      taking over the other coordinator's track failed. House is unjoined in
      no other case. */
  lemma ToggleExternalAlwaysPlays(net: Network, modern: bool, failing: set<Command>)
    requires Proceeds(net)
    ensures var r := Toggle(net, modern, failing);
      (Command(HOUSE_IP, Unjoin) in r.commands <==> External(net[HOUSE_IP]))
    ensures var r := Toggle(net, modern, failing);
      External(net[HOUSE_IP]) ==>
        var resumed := ResumeFromOther(net, net[HOUSE_IP].group.value.coordinator, HOUSE_IP, failing);
        && r.verdict == Finished(Play)
        && |r.commands| > 0
        && (resumed.ok <==> r.commands[|r.commands| - 1] == Command(HOUSE_IP, Unjoin))
    ensures var r := Toggle(net, modern, failing);
      External(net[HOUSE_IP]) ==>
        var resumed := ResumeFromOther(net, net[HOUSE_IP].group.value.coordinator, HOUSE_IP, failing);
        r.commands == KickGym(net) + (resumed.commands + [Command(HOUSE_IP, Unjoin)] +
          (if resumed.ok then [] else PlayStation(HOUSE_IP, net[HOUSE_IP], modern, failing).commands))
  {
    if External(net[HOUSE_IP]) {
      ExternalRun(net, modern, failing);
      ExternalRunEnds(net, modern, failing);
    } else {
      InternalRunKeepsGroup(net, modern, failing);
    }
  }

  /** In the external case House is unjoined, and the unjoin is the last
      command exactly when the takeover succeeded. */
  lemma ExternalRunEnds(net: Network, modern: bool, failing: set<Command>)
    requires Proceeds(net) && External(net[HOUSE_IP])
    ensures var r := Toggle(net, modern, failing);
      var resumed := ResumeFromOther(net, net[HOUSE_IP].group.value.coordinator, HOUSE_IP, failing);
      && Command(HOUSE_IP, Unjoin) in r.commands
      && (resumed.ok <==> r.commands[|r.commands| - 1] == Command(HOUSE_IP, Unjoin))
  {
    var resumed := ResumeFromOther(net, net[HOUSE_IP].group.value.coordinator, HOUSE_IP, failing);
    var station := if resumed.ok then [] else PlayStation(HOUSE_IP, net[HOUSE_IP], modern, failing).commands;
    var cmds := KickGym(net) + (resumed.commands + [Command(HOUSE_IP, Unjoin)] + station);
    ExternalRun(net, modern, failing);
    assert cmds[|KickGym(net)| + |resumed.commands|] == Command(HOUSE_IP, Unjoin);
    if !resumed.ok {
      assert cmds[|cmds| - 1] == station[|station| - 1];
    }
  }

  /** Outside the external case, House is never unjoined. */
  lemma InternalRunKeepsGroup(net: Network, modern: bool, failing: set<Command>)
    requires Proceeds(net) && !External(net[HOUSE_IP])
    ensures Command(HOUSE_IP, Unjoin) !in Toggle(net, modern, failing).commands
  {
    var step := HouseStep(net, modern, failing);
    assert Toggle(net, modern, failing).commands == KickGym(net) + step.commands;
    assert Command(HOUSE_IP, Unjoin) !in KickGym(net);
    assert forall i :: 0 <= i < |step.commands| ==> step.commands[i].op != Unjoin;
  }

  /** The external branch of a whole run, as sent. */
  lemma ExternalRun(net: Network, modern: bool, failing: set<Command>)
    requires Proceeds(net) && External(net[HOUSE_IP])
    ensures var resumed := ResumeFromOther(net, net[HOUSE_IP].group.value.coordinator, HOUSE_IP, failing);
      var station := if resumed.ok then [] else PlayStation(HOUSE_IP, net[HOUSE_IP], modern, failing).commands;
      Toggle(net, modern, failing) ==
        Run(KickGym(net) + (resumed.commands + [Command(HOUSE_IP, Unjoin)] + station), Finished(Play))
  {
    ExternalStep(net, modern, failing);
  }

  /** The external branch of the House step, as sent. */
  lemma ExternalStep(net: Network, modern: bool, failing: set<Command>)
    requires HOUSE_IP in net && External(net[HOUSE_IP])
    ensures var resumed := ResumeFromOther(net, net[HOUSE_IP].group.value.coordinator, HOUSE_IP, failing);
      var station := if resumed.ok then [] else PlayStation(HOUSE_IP, net[HOUSE_IP], modern, failing).commands;
      HouseStep(net, modern, failing) == Run(resumed.commands + [Command(HOUSE_IP, Unjoin)] + station, Finished(Play))
  {
  }

  /** Outside the external case, the action is pause exactly when House
      reports PLAYING: a playing House gets only the pause, and the run
      finishes with pause unless that pause raises. A run that ends with
      pause had House playing. */
  lemma TogglePausesIffPlaying(net: Network, modern: bool, failing: set<Command>)
    requires Proceeds(net)
    ensures var r := Toggle(net, modern, failing);
      !External(net[HOUSE_IP]) && net[HOUSE_IP].state.Some? ==>
        (Command(HOUSE_IP, Pause) in r.commands <==> net[HOUSE_IP].state.value == PLAYING)
    ensures var r := Toggle(net, modern, failing);
      r.verdict == Finished(Pause) ==> !External(net[HOUSE_IP]) && net[HOUSE_IP].state == Some(PLAYING)
    ensures var r := Toggle(net, modern, failing);
      !External(net[HOUSE_IP]) && net[HOUSE_IP].state == Some(PLAYING) ==>
        && r.commands == KickGym(net) + [Command(HOUSE_IP, Pause)]
        && r.verdict == if Command(HOUSE_IP, Pause) in failing then Crashed else Finished(Pause)
  {
    var r := Toggle(net, modern, failing);
    var house := net[HOUSE_IP];
    var step := HouseStep(net, modern, failing);
    assert r.commands == KickGym(net) + step.commands;
    assert Command(HOUSE_IP, Pause) !in KickGym(net);
    if !External(house) && house.state.Some? && house.state.value != PLAYING {
      assert forall i :: 0 <= i < |step.commands| ==> step.commands[i].op != Pause;
    }
  }

  /** A paused House with a current uri resumes in place: after the Gym
      step, the only command is one plain play, with no seek and no station. */
  lemma TogglePausedResumesInPlace(net: Network, modern: bool, failing: set<Command>)
    requires Proceeds(net)
    requires !External(net[HOUSE_IP])
    requires net[HOUSE_IP].state == Some(PAUSED_PLAYBACK) && CurrentUri(net[HOUSE_IP]) != ""
    ensures var r := Toggle(net, modern, failing);
      && !Issues(r.commands, IsSeek)
      && !Issues(r.commands, IsPlayUri)
      && (forall i :: 0 <= i < |r.commands| && r.commands[i].target == HOUSE_IP ==>
            r.commands[i] == Command(HOUSE_IP, Play))
      && r.commands[|r.commands| - 1] == Command(HOUSE_IP, Play)
      && r.verdict == if Command(HOUSE_IP, Play) in failing then Crashed else Finished(Play)
    ensures Toggle(net, modern, failing).commands == KickGym(net) + [Command(HOUSE_IP, Play)]
  {
  }

  /** A paused House whose current uri has vanished starts the station
      instead: the station search is all that House receives, no plain play
      follows, and the run finishes with play whatever the search sent. */
  lemma TogglePausedWithoutUriPlaysStation(net: Network, modern: bool, failing: set<Command>)
    requires Proceeds(net)
    requires !External(net[HOUSE_IP])
    requires net[HOUSE_IP].state == Some(PAUSED_PLAYBACK) && CurrentUri(net[HOUSE_IP]) == ""
    ensures var r := Toggle(net, modern, failing);
      && r.commands == KickGym(net) + PlayStation(HOUSE_IP, net[HOUSE_IP], modern, failing).commands
      && Command(HOUSE_IP, Play) !in r.commands
      && r.verdict == Finished(Play)
  {
    var station := PlayStation(HOUSE_IP, net[HOUSE_IP], modern, failing).commands;
    assert forall i :: 0 <= i < |station| ==> station[i].op != Play;
  }

  /** In any other state the station search runs exactly when the queue is
      empty or there is no current uri, and one play follows unconditionally;
      nothing else is sent after the Gym step. */
  lemma ToggleStoppedLoadsStationWhenEmpty(net: Network, modern: bool, failing: set<Command>)
    requires Proceeds(net)
    requires !External(net[HOUSE_IP])
    requires net[HOUSE_IP].state.Some?
    requires net[HOUSE_IP].state.value != PLAYING && net[HOUSE_IP].state.value != PAUSED_PLAYBACK
    ensures var r := Toggle(net, modern, failing);
      && (Issues(r.commands, IsPlayUri) <==> QueueEmpty(net[HOUSE_IP]) || CurrentUri(net[HOUSE_IP]) == "")
      && r.commands[|r.commands| - 1] == Command(HOUSE_IP, Play)
      && (r.verdict == Finished(Play) <==> Command(HOUSE_IP, Play) !in failing)
    ensures var r := Toggle(net, modern, failing);
      var house := net[HOUSE_IP];
      && r.commands == KickGym(net) +
           ((if QueueEmpty(house) || CurrentUri(house) == "" then PlayStation(HOUSE_IP, house, modern, failing).commands else []) +
            [Command(HOUSE_IP, Play)])
      && r.verdict == if Command(HOUSE_IP, Play) in failing then Crashed else Finished(Play)
  {
    var house := net[HOUSE_IP];
    var kick := KickGym(net);
    var station :=
      if QueueEmpty(house) || CurrentUri(house) == ""
      then PlayStation(HOUSE_IP, house, modern, failing).commands else [];
    StoppedRun(net, modern, failing);
    assert kick + (station + [Command(HOUSE_IP, Play)]) == kick + station + [Command(HOUSE_IP, Play)];
    assert !Issues(kick, IsPlayUri);
    assert !Issues([Command(HOUSE_IP, Play)], IsPlayUri);
    if station != [] {
      assert IsPlayUri(station[0]);
    }
    IssuesConcat(kick, station, IsPlayUri);
    IssuesConcat(kick + station, [Command(HOUSE_IP, Play)], IsPlayUri);
  }

  /** The STOPPED/NO_MEDIA branch of a whole run, as sent. */
  lemma StoppedRun(net: Network, modern: bool, failing: set<Command>)
    requires Proceeds(net)
    requires !External(net[HOUSE_IP])
    requires net[HOUSE_IP].state.Some?
    requires net[HOUSE_IP].state.value != PLAYING && net[HOUSE_IP].state.value != PAUSED_PLAYBACK
    ensures var house := net[HOUSE_IP];
      var station :=
        if QueueEmpty(house) || CurrentUri(house) == ""
        then PlayStation(HOUSE_IP, house, modern, failing).commands else [];
      Toggle(net, modern, failing) ==
        Run(KickGym(net) + (station + [Command(HOUSE_IP, Play)]),
            if Command(HOUSE_IP, Play) in failing then Crashed else Finished(Play))
  {
  }

  /** Outside the external case, a state query that raises crashes the run
      before anything is sent to House: only the Gym step has gone out. */
  lemma ToggleUnreadableStateCrashes(net: Network, modern: bool, failing: set<Command>)
    requires Proceeds(net)
    requires !External(net[HOUSE_IP]) && net[HOUSE_IP].state.None?
    ensures Toggle(net, modern, failing) == Run(KickGym(net), Crashed)
  {
    assert KickGym(net) + [] == KickGym(net);
  }
}

=== FILE: sonos.dfy ===
/** Shared vocabulary of the Sonos toggle scripts: an immutable snapshot of the
    speakers on the network as the device-control library would report them,
    the commands a script can send, and how a run ends.

    Every library query becomes a field of the snapshot. `None` stands for a
    query that raised the library's own exception; `Query` additionally
    distinguishes a method that does not exist (an AttributeError in an older
    library version). */
module Sonos {

  datatype Option<+T> = None | Some(value: T)

  /** Outcome of a query that the scripts guard against a missing method. */
  datatype Query<+T> = Answer(value: T) | Missing | Failed

  /** The two named speakers of the House scripts. */
  const HOUSE_IP: string := "192.168.1.102"
  const GYM_IP: string := "192.168.1.193"

  const PLAYING: string := "PLAYING"
  const PAUSED_PLAYBACK: string := "PAUSED_PLAYBACK"

  /** The speaker's group: the ip address of its coordinator and its member count. */
  datatype Group = Group(coordinator: string, size: nat)

  /** Current track information: the "uri" and "position" entries, when present. */
  datatype TrackInfo = TrackInfo(uri: Option<string>, position: Option<string>)

  /** A favourite as listed by the music-library service: title and resource uris. */
  datatype Favourite = Favourite(title: string, resources: seq<string>)

  /** A favourite as listed by the speaker's legacy call; either attribute may be absent. */
  datatype LegacyFavourite = LegacyFavourite(title: Option<string>, uri: Option<string>)

  /** Everything the scripts ask one speaker, fixed at the start of a run. */
  datatype Speaker = Speaker(
    name: string,
    group: Option<Group>,
    state: Option<string>,
    queueSize: Query<nat>,
    queueLength: Query<nat>,
    track: Option<TrackInfo>,
    favourites: Option<seq<Favourite>>,
    legacyFavourites: Option<seq<LegacyFavourite>>)

  /** The speakers a run can reach, keyed by ip address. An address outside the
      map is one that cannot be connected to. */
  type Network = map<string, Speaker>

  datatype Op =
    | Play
    | Pause
    | PlayUri(uri: string)
    | Seek(position: string)
    | Unjoin
    | Join(master: string)
    | ClearQueue
    | AddUriToQueue(uri: string)

  /** The two transport actions a toggle reports. */
  type Action = op: Op | op == Play || op == Pause witness Play

  /** One command sent to the speaker at `target`. */
  datatype Command = Command(target: string, op: Op)

  /** How a run ends: with a reported action, with a deliberate exit carrying a
      message, or with an exception the script does not catch. */
  datatype Verdict = Finished(action: Action) | Aborted(reason: string) | Crashed

  /** The commands a run issued, in order, and how it ended. A command that
      failed on the device is still listed: it was attempted. */
  datatype Run = Run(commands: seq<Command>, verdict: Verdict)

  /** Result of issuing commands one after another until one fails. */
  datatype Issued = Issued(sent: seq<Command>, ok: bool)

  /** Issues `cmds` in order; the first command in `failing` raises and
      nothing after it is sent. */
  function IssueAll(cmds: seq<Command>, failing: set<Command>): (r: Issued)
    ensures r.sent <= cmds
    ensures r.ok <==> (forall i :: 0 <= i < |cmds| ==> cmds[i] !in failing)
    ensures r.ok ==> r.sent == cmds
    ensures !r.ok ==> |r.sent| > 0 && r.sent[|r.sent| - 1] in failing
    ensures forall i :: 0 <= i < |r.sent| - 1 ==> r.sent[i] !in failing
  {
    if |cmds| == 0 then Issued([], true)
    else if cmds[0] in failing then Issued([cmds[0]], false)
    else
      var rest := IssueAll(cmds[1..], failing);
      Issued([cmds[0]] + rest.sent, rest.ok)
  }

  /** Only the failures of the commands actually in `cmds` matter. */
  lemma {:induction false} IssueAllSameFailures(cmds: seq<Command>, f1: set<Command>, f2: set<Command>)
    requires forall i :: 0 <= i < |cmds| ==> (cmds[i] in f1 <==> cmds[i] in f2)
    ensures IssueAll(cmds, f1) == IssueAll(cmds, f2)
  {
    if |cmds| > 0 && cmds[0] !in f1 {
      IssueAllSameFailures(cmds[1..], f1, f2);
    }
  }

  /** The state reported by the speaker at `ip`; a speaker outside the
      snapshot cannot answer. */
  function StateOf(net: Network, ip: string): Option<string>
  {
    if ip in net then net[ip].state else None
  }

  /** True when some command in `cmds` satisfies `p`. */
  predicate Issues(cmds: seq<Command>, p: Command -> bool)
  {
    exists i :: 0 <= i < |cmds| && p(cmds[i])
  }

  predicate IsPlayUri(c: Command) { c.op.PlayUri? }

  predicate IsSeek(c: Command) { c.op.Seek? }

  lemma IssuesConcat(a: seq<Command>, b: seq<Command>, p: Command -> bool)
    ensures Issues(a + b, p) <==> Issues(a, p) || Issues(b, p)
  {
    if Issues(a + b, p) {
      var i :| 0 <= i < |a + b| && p((a + b)[i]);
      if i >= |a| {
        assert b[i - |a|] == (a + b)[i];
      }
    }
    if Issues(a, p) {
      var i :| 0 <= i < |a| && p(a[i]);
      assert (a + b)[i] == a[i];
    }
    if Issues(b, p) {
      var i :| 0 <= i < |b| && p(b[i]);
      assert (a + b)[|a| + i] == b[i];
    }
  }
}

=== FILE: text.dfy ===
/** String helpers the favourite lookup needs: lower-casing, substring test
    and a first-match search. */
module Text {
  import opened Sonos

  function LowerChar(c: char): char
  {
    if 'A' <= c <= 'Z' then (c as int + 32) as char else c
  }

  /** Lower-cases the ASCII letters of `s`, leaving every other character alone. */
  function Lower(s: string): (r: string)
    ensures |r| == |s|
    ensures forall i :: 0 <= i < |s| ==> !('A' <= r[i] <= 'Z')
  {
    seq(|s|, i requires 0 <= i < |s| => LowerChar(s[i]))
  }

  /** `needle` occurs as a contiguous part of `hay` (Python's `needle in hay`). */
  predicate Contains(hay: string, needle: string)
  {
    exists i :: 0 <= i <= |hay| - |needle| && OccursAt(hay, needle, i)
  }

  predicate OccursAt(hay: string, needle: string, i: int)
    requires 0 <= i <= |hay| - |needle|
  {
    hay[i..i + |needle|] == needle
  }

  /** `i` is the first index of `xs` whose element satisfies `p`. */
  predicate IsFirst<T>(xs: seq<T>, p: T -> bool, i: nat)
  {
    i < |xs| && p(xs[i]) && forall j :: 0 <= j < i ==> !p(xs[j])
  }

  /** At most one index is the first match. */
  lemma FirstUnique<T>(xs: seq<T>, p: T -> bool, i: nat)
    requires IsFirst(xs, p, i)
    ensures forall j: nat :: IsFirst(xs, p, j) ==> j == i
  {
  }

  /** Index of the first element of `xs` that satisfies `p`, if any. */
  function FirstMatch<T>(xs: seq<T>, p: T -> bool): (r: Option<nat>)
    ensures r.Some? ==> r.value < |xs| && p(xs[r.value])
    ensures r.Some? ==> forall j :: 0 <= j < r.value ==> !p(xs[j])
    ensures r.None? <==> forall j :: 0 <= j < |xs| ==> !p(xs[j])
  {
    if |xs| == 0 then None
    else if p(xs[0]) then Some(0)
    else match FirstMatch(xs[1..], p)
      case None => None
      case Some(k) => Some(k + 1)
  }
}
